=== FILE: README.md ===
# Aethaum ECS front end — a verified Dafny model

Aethaum compiles a declarative Entity-Component-System description into
Rust. Authors write components, events, entity prototypes and systems in
TOML files grouped into named modules. This project models the checkable
front end of that compiler:

- the reference model: a closed union over component, event, entity-prototype
  and system references, with its accessors and diagnostic text, and the
  module record with its builders (`EcsModel`, `ecs_module.dfy`);
- the symbol tables: a per-module context holding one set of defined
  references per kind, and the project tree mapping module names to
  contexts (`CheckContext`, `context.dfy`);
- in-module registration with duplicate rejection (`InModule`);
- cross-module module registration and module-qualified path resolution
  (`CrossModule`);
- the type checker for a field's default literal (`TypeChecker`);
- the raw-to-typed conversion rules: type-string classification, reference
  construction, handler priorities, update intervals and all-or-nothing
  system conversion (`Parsed`, with TOML values in `Toml`);
- the loader's error-aggregation policy. Zero failures give every value in
  order. One failure is returned unwrapped. Several are wrapped in
  `Multiple` in the order they were met. This policy applies to part
  directories, to entity prototypes and to the modules of a project. Module
  loading visits systems, components, events, then entity prototypes, and
  stops at the first part that fails (`Loader`).

Everything is immutable data and pure functions; the few preconditions are stated on the functions that have them. Operations that mutate
state in place (`try_register`, `register_module`) return the new state
together with an `Outcome`. On failure that state is the one passed in.

Modelling choices:

- All four reference kinds share one shape, `Parsed.Ref(name, moduleName)`,
  and compare structurally. `Ref(n, None)` differs from `Ref(n, Some(m))`.
- Building a reference from a string (`ComponentRef::new`, `From<&str>`)
  keeps the whole string as the name. The code in the conversion file
  splits nothing at `::`, so `"combat::Health"` becomes one unqualified
  name. `module.rs` reads a `module_name` field that the `ComponentRef` in
  `toml_parser/parsed.rs:66-69` does not have. The model gives every
  reference that field, and the conversions leave it empty.
- The `Display` implementations of the reference types are not in the
  source. `EcsModel.RefDisplay` assumes the language's textual form:
  `name`, or `module::name` when qualified.
- The checker code implements less than its names suggest, and the model
  follows the code:
  - `try_register` never inspects a module qualifier; it builds the
    unqualified reference of the bare name and tests membership
    (`crates/aethaum-core/src/ecs/checker/in_module.rs:11-41`);
  - `check_in_module_ref` is `todo!()` (`crates/aethaum-core/src/ecs/checker/in_module.rs:46-48`);
  - `check_cross_module_ref` has no error for an unqualified reference: it
    looks up the path's module and tests plain membership of the reference
    value in that module's set for its kind
    (`crates/aethaum-core/src/ecs/checker/cross_module.rs:16-42`);
  - `EcsChecker` and `CheckStage` carry no behaviour
    (`crates/aethaum-core/src/ecs/checker.rs:8-15`).

  One consequence is proved in `CrossModule.QualifiedRefNeverResolves`.
- `raw.rs` disagrees with the conversion code in places. Its query record
  has one `components` list, and component and event `fields` are not
  optional. The model follows `toml_parser/parsed.rs`, which reads
  `components_include`/`components_exclude` and optional field lists.

## Model

| member | source | states |
|---|---|---|
| `Parsed.IsCustom` | crates/aethaum-core/src/toml_parser/parsed.rs:34-36 | a type is custom exactly when it is the user-named variant |
| `Parsed.IsPrimitive` | crates/aethaum-core/src/toml_parser/parsed.rs:30-36 | exactly one of `is_primitive` and `is_custom` holds for every type |
| `Parsed.FromTypeStr` | crates/aethaum-core/src/toml_parser/parsed.rs:37-46 | the result is custom exactly when the string is not one of "float", "int", "bool", "str"; the type's spelling is the input string, so a custom type carries that same string |
| `Parsed.FromTypeStrOfTypeStr` | crates/aethaum-core/src/toml_parser/parsed.rs:37-46 | classifying a type's spelling gives the type back, unless it is a custom type named like a primitive keyword |
| `Parsed.RefsFrom` | crates/aethaum-core/src/toml_parser/parsed.rs:70-87 | building references from names keeps every name in order and leaves every reference unqualified |
| `Parsed.UnqualifiedRefsDeterminedByNames` | crates/aethaum-core/src/toml_parser/parsed.rs:66-77 | unqualified references are determined by their names, so a conversion's contract pins down its result |
| `Parsed.ComponentFieldFrom` | crates/aethaum-core/src/toml_parser/parsed.rs:183-192 | a field keeps its name, default and description; its type reads back as the declared spelling and is primitive exactly when the spelling is one of the four keywords |
| `Parsed.ComponentFrom` | crates/aethaum-core/src/toml_parser/parsed.rs:193-204 | absent fields stay absent; present fields are converted one to one, in order |
| `Parsed.EventFieldFrom` | crates/aethaum-core/src/toml_parser/parsed.rs:205-213 | an event field keeps its name and description; its type reads back as the declared spelling and is primitive exactly when the spelling is one of the four keywords |
| `Parsed.EventFrom` | crates/aethaum-core/src/toml_parser/parsed.rs:214-225 | absent fields stay absent; present fields are converted one to one, in order |
| `Parsed.OptionalRefsFrom` | crates/aethaum-core/src/toml_parser/parsed.rs:98-99 | `None` stays `None`; a present list becomes one unqualified reference per name, same order and length |
| `Parsed.ConstraintFrom` | crates/aethaum-core/src/toml_parser/parsed.rs:93-102 | include and exclude lists each keep `None`/`Some`, their names, order and length, and hold only unqualified references |
| `Parsed.EntityProtoFrom` | crates/aethaum-core/src/toml_parser/parsed.rs:226-234 | a prototype keeps its name and description, and its component references carry the listed names in order, unqualified |
| `Parsed.QueryFrom` | crates/aethaum-core/src/toml_parser/parsed.rs:235-245 | a query keeps its name and description, and its constraint is built from its include/exclude lists |
| `Parsed.ConvertPriority` | crates/aethaum-core/src/toml_parser/parsed.rs:251-264 | an absent priority is 0, a negative integer is an error, a non-integer is an error, and a non-negative integer is cast to 32 bits (unchanged below 2^32, otherwise congruent modulo 2^32) |
| `Parsed.HandlerTryFrom` | crates/aethaum-core/src/toml_parser/parsed.rs:246-268 | a handler converts exactly when its priority does, keeping its watched event and logic |
| `Parsed.ConvertInterval` | crates/aethaum-core/src/toml_parser/parsed.rs:273-287 | an integer interval <= 0 is an error, a positive integer is that many seconds, a float is rejected exactly when it compares `<= 0.0`, and any other value is not a number |
| `Parsed.UpdateTryFrom` | crates/aethaum-core/src/toml_parser/parsed.rs:269-292 | an update converts exactly when its interval does, keeping condition and logic |
| `Parsed.OptionalUpdateTryFrom` | crates/aethaum-core/src/toml_parser/parsed.rs:299 | an absent update stays absent; a present one succeeds or fails with its conversion |
| `Parsed.ConvertHandlers` | crates/aethaum-core/src/toml_parser/parsed.rs:300-303 | all handlers convert, in order and one to one, or the error is that of the first handler that fails |
| `Parsed.SystemTryFrom` | crates/aethaum-core/src/toml_parser/parsed.rs:293-306 | a system converts exactly when its update and every handler do; queries and handlers keep their count and order, an absent update stays absent, and an update error wins over handler errors |
| `EcsModel.Display` | crates/aethaum-core/src/ecs/module.rs:62-71 | displaying a thing reference equals displaying the wrapped reference, for every kind |
| `EcsModel.Name` | crates/aethaum-core/src/ecs/module.rs:45-60 | the name is the wrapped reference's name, whatever the kind |
| `EcsModel.ModuleName` | crates/aethaum-core/src/ecs/module.rs:29-44 | the qualifier when present, the empty string when absent |
| `EcsModel.AsErrorStr` | crates/aethaum-core/src/ecs/module.rs:13-28 | the description is the kind label ("Component", "Event", "Entity Proto", "System"), a space, and the reference's display in double quotes |
| `EcsModel.AsErrorStrDistinguishesKinds` | crates/aethaum-core/src/ecs/module.rs:13-28 | equal descriptions imply the same kind and the same display |
| `EcsModel.NewEmpty` | crates/aethaum-core/src/ecs/module.rs:86-94 | the new module has the given name and all four lists absent |
| `EcsModel.WithComponents` | crates/aethaum-core/src/ecs/module.rs:95-98 | sets the component list to `Some(given)`; name and the other lists unchanged |
| `EcsModel.WithEvents` | crates/aethaum-core/src/ecs/module.rs:99-102 | sets the event list to `Some(given)`; name and the other lists unchanged |
| `EcsModel.WithEntityProtos` | crates/aethaum-core/src/ecs/module.rs:103-106 | sets the entity-prototype list to `Some(given)`; name and the other lists unchanged |
| `EcsModel.WithSystems` | crates/aethaum-core/src/ecs/module.rs:107-110 | sets the system list to `Some(given)`; name and the other lists unchanged |
| `EcsModel.BuildersCommute` | crates/aethaum-core/src/ecs/module.rs:95-110 | builders for different lists commute |
| `CheckContext.ExactlyFourKinds` | crates/aethaum-core/src/ecs/checker/context.rs:30-35 | there are exactly four thing kinds |
| `CheckContext.KindOfAgreesWithSameKind` | crates/aethaum-core/src/ecs/checker/context.rs:30-35 | the checker's kind of a reference and the reference model's notion of same kind agree |
| `CheckContext.WithDefined` | crates/aethaum-core/src/ecs/checker/context.rs:38-44 | each kind has its own set: replacing one (as registration does) leaves the name and the other three unchanged |
| `CheckContext.NewContext` | crates/aethaum-core/src/ecs/checker/context.rs:46-54 | a new context has the given name and four empty sets |
| `CheckContext.NewTree` | crates/aethaum-core/src/ecs/checker/context.rs:12-16 | a new tree contains no module |
| `CheckContext.GetModuleContext` | crates/aethaum-core/src/ecs/checker/context.rs:17-19 | `Some(c)` exactly when the tree maps the name to `c`, `None` otherwise |
| `CheckContext.GetTree` | crates/aethaum-core/src/ecs/checker/context.rs:23-25 | the whole table agrees with `get_module_context` on every name |
| `InModule.TryRegister` | crates/aethaum-core/src/ecs/checker/in_module.rs:9-44 | succeeds exactly when the unqualified ref of the name is not yet in the kind's set; on success that set gains exactly that ref (size + 1); on failure the context is unchanged and the error is "already defined"; the name and the other kinds' sets never change |
| `InModule.TryRegisterKeepsUnqualified` | crates/aethaum-core/src/ecs/checker/in_module.rs:11-42 | registration only ever inserts unqualified references |
| `InModule.RegisterTwice` | crates/aethaum-core/src/ecs/checker/in_module.rs:13-17 | registering a fresh name twice under one kind: the first call succeeds, the second fails and leaves the context as the first left it |
| `InModule.RegisterUnderEveryKind` | crates/aethaum-core/src/ecs/checker/in_module.rs:10-43 | uniqueness is per kind: a name can be registered once under each of the four kinds |
| `InModule.CheckInModule` | crates/aethaum-core/src/ecs/checker/in_module.rs:50-54 | the default in-module check succeeds and leaves the context unchanged |
| `CrossModule.RegisterModule` | crates/aethaum-core/src/ecs/checker/cross_module.rs:8-14 | a fresh name succeeds and then maps to the given context, adding only that key; a taken name fails and leaves the tree unchanged; entries for other names are never altered |
| `CrossModule.CheckCrossModuleRef` | crates/aethaum-core/src/ecs/checker/cross_module.rs:16-42 | an unregistered module fails as such, whatever the kind; otherwise success exactly when the reference is in that module's set for its own kind, and failure names the thing and the module |
| `CrossModule.OnlyOwnKindConsulted` | crates/aethaum-core/src/ecs/checker/cross_module.rs:19-40 | only the module's set for the reference's own kind is consulted: trees that agree on the module's registration and on that one set give the same outcome |
| `CrossModule.QualifiedRefNeverResolves` | crates/aethaum-core/src/ecs/checker/cross_module.rs:19-40 | against contexts holding only unqualified references, as registration builds them, a qualified reference never resolves |
| `CrossModule.CombatExploreExample` | crates/aethaum-core/src/ecs/checker/cross_module.rs:16-42 | with `combat` defining `Health` and `explore` defining `Position` and `Player`, `combat`'s `Health` resolves, module `nope` is reported as not registered, and an event `Health` is not found |
| `CrossModule.CheckCrossModule` | crates/aethaum-core/src/ecs/checker/cross_module.rs:44-48 | the default cross-module check always succeeds |
| `TypeChecker.CheckTypeValueMatch` | crates/aethaum-core/src/ecs/checker/type_checker.rs:5-19 | for a primitive declared type, an absent default is accepted, and a present one is accepted exactly when its TOML kind is the one the primitive admits (boolean, integer, float, string); otherwise a type mismatch naming the declared type; a custom type is excluded by precondition |
| `TypeChecker.OneKindPerPrimitive` | crates/aethaum-core/src/ecs/checker/type_checker.rs:8-15 | each primitive admits exactly one kind of value, and different primitives admit disjoint kinds |
| `TypeChecker.IntegerDefaultForFloatRejected` | crates/aethaum-core/src/ecs/checker/type_checker.rs:11-14 | an integer default for a float field is a type mismatch |
| `TypeChecker.CheckType` | crates/aethaum-core/src/ecs/checker/type_checker.rs:21-25 | the default type check always succeeds |
| `Loader.FailuresAppend` | crates/aethaum-core/src/ecs/loader.rs:186-191 | errors are collected in encounter order: those of a concatenation are those of the first part followed by those of the second |
| `Loader.FailuresMembers` | crates/aethaum-core/src/ecs/loader.rs:186-191 | an error is collected exactly when some item failed with it |
| `Loader.NoFailures` | crates/aethaum-core/src/ecs/loader.rs:186-201 | no error is collected exactly when every item succeeded, and then every value is collected in order |
| `Loader.Combine` | crates/aethaum-core/src/ecs/loader.rs:193-199 | one error is returned as it is, several are wrapped in `Multiple` |
| `Loader.Gather` | crates/aethaum-core/src/ecs/loader.rs:183-201 | success exactly when every item succeeds, with every value in item order; any failure returns no values, only the combined errors |
| `Loader.CollectResults` | crates/aethaum-core/src/ecs/loader.rs:183-201 | the push-and-branch loop of the source computes exactly the aggregation policy |
| `Loader.SingleFailureUnwrapped` | crates/aethaum-core/src/ecs/loader.rs:193-195 | exactly one failing item: its error is returned unwrapped |
| `Loader.SeveralFailuresWrapped` | crates/aethaum-core/src/ecs/loader.rs:196-197 | two or more failing items: the result is `Multiple` of all collected errors, and every failing item's error is among them |
| `Loader.LoadParts` | crates/aethaum-core/src/ecs/loader.rs:174-202 | a failed listing is the directory's read error, as `IoError`; a missing or empty directory gives `None`; otherwise success exactly when every listed file loads, giving the files' parts concatenated in listing order; on failure the aggregated file errors |
| `Loader.LoadComponentFile` | crates/aethaum-core/src/ecs/loader.rs:89-96 | every component of a file is converted, in order; a read or parse error passes through |
| `Loader.LoadEventFile` | crates/aethaum-core/src/ecs/loader.rs:102-109 | every event of a file is converted, in order; a read or parse error passes through |
| `Loader.ConvertEntityProtos` | crates/aethaum-core/src/ecs/loader.rs:120-135 | the per-prototype aggregation always succeeds, converting every prototype in order |
| `Loader.LoadEntityProtoFile` | crates/aethaum-core/src/ecs/loader.rs:115-136 | a prototype file loads exactly when it parses, with its prototypes converted in order |
| `Loader.LoadSystemFile` | crates/aethaum-core/src/ecs/loader.rs:77-83 | a system file yields its one system when it parses and converts; a conversion failure becomes a conversion error |
| `Loader.LoadModule` | crates/aethaum-core/src/ecs/loader.rs:161-173 | a module loads exactly when all four part directories do, each list taken from its directory; the first failure in the order systems, components, events, entity prototypes is the result |
| `Loader.ComponentListingFailureFailsModule` | crates/aethaum-core/src/ecs/loader.rs:161-179 | once systems have loaded, a failed listing of the component directory is the module's error, as `IoError` |
| `Loader.EmptyModuleDirectory` | crates/aethaum-core/src/ecs/loader.rs:176-182 | a module with no part directories loads as the empty module |
| `Loader.LoadProject` | crates/aethaum-core/src/ecs/loader.rs:235-258 | a world read or parse error becomes a file error, and every failure is a file error; otherwise success exactly when every listed module loads, with modules in the world's order and each named as listed; on failure the aggregated module errors as a file error |

## Left out

- File-system access (`load_file`, `list_dir`, the directory-existence checks) and TOML deserialisation are inputs. Each part directory is given as its listing result, whose only error is the directory's read error, and whose entries are the results each file's read and parse produced. A per-file input may carry any loader error, which is wider than the read, parse and conversion errors a file load can produce; no stated property depends on it. A missing directory and an empty one are both the empty listing, as both yield `None`. A module directory missing from the map has no part directories.
- The order of the world's module table is taken as the order of `World.modules`. The world record, the project record and the `with_option_*` builders that `ModuleFileLoader::load` calls are not part of this model: `Loader.LoadModule` builds the module record directly.
- The world file's own loading is an input: `World::try_load` can fail only with a read or parse error, which `LoadProject` wraps in `FileError` as the `From` conversions do. `MissingWorld` and `MissingModule` are declared but raised by no code, and the model never produces them.
- Error message text is left out; errors are tagged kinds. The references' `Display` impls are not in the source; `EcsModel.RefDisplay` assumes `name`, or `module::name` when qualified (see above).
- `Parsed.ConvertInterval` covers the float branch's `f <= 0.0` test exactly, using IEEE-754 fields. It keeps the accepted literal opaque. It does not model `Duration::from_secs_f64` or its panic on NaN, infinite or out-of-range values.
- `check_in_module_ref` is `todo!()` (crates/aethaum-core/src/ecs/checker/in_module.rs:46-48), so it is not modelled. `EcsChecker` is an empty struct and `CheckStage` a three-variant enum; neither has behaviour (crates/aethaum-core/src/ecs/checker.rs:8-15), so neither is modelled.
- The code generator (`transpile.rs`, `utils.rs`, `aethaum_predefined.rs`, `code_generator.rs`) and `to_rust_type`, which is `todo!()`, are left out.
- The `Parser` wrapper in `toml_parser.rs` and the `TomlCode::from_raw_file` glue are left out. Lua script bodies are opaque strings.
- `get_module_context_mut` and `get_tree_mut` have no counterpart; the functional model returns new values instead.
- That lookups leave the tree unchanged, and that the tree holds at most one context per name, have no separate members. Both hold by construction: the functions are pure and the tree is a `map`.

=== FILE: context.dfy ===
/** Symbol tables: one context per module holding a separate set of defined
    references for each of the four kinds of thing, and the project tree
    mapping module names to their contexts. */
module CheckContext {
  import opened Wrappers
  import Parsed
  import EcsModel

  /** The four kinds of definable thing. */
  datatype EcsThing = Component | Event | EntityProto | System

  const AllKinds: set<EcsThing> := {Component, Event, EntityProto, System}

  /** There are exactly four kinds. */
  lemma ExactlyFourKinds(k: EcsThing)
    ensures k in AllKinds
    ensures |AllKinds| == 4
  {
  }

  /** The kind a thing reference refers to. */
  function KindOf(t: EcsModel.EcsThingRef): EcsThing {
    match t
    case Component(_) => Component
    case Event(_) => Event
    case EntityProto(_) => EntityProto
    case System(_) => System
  }

  /** Two references have the same kind exactly when the reference model
      says they do. */
  lemma KindOfAgreesWithSameKind(a: EcsModel.EcsThingRef, b: EcsModel.EcsThingRef)
    ensures KindOf(a) == KindOf(b) <==> EcsModel.SameKind(a, b)
  {
  }

  /** What one module defines, kind by kind. */
  datatype ModuleCheckContext = ModuleCheckContext(
    name: string,
    definedComponents: set<Parsed.ComponentRef>,
    definedEvents: set<Parsed.EventRef>,
    definedEntityProtos: set<Parsed.EntityProtoRef>,
    definedSystems: set<Parsed.SystemRef>)

  /** The set a context keeps for one kind. */
  function Defined(ctx: ModuleCheckContext, kind: EcsThing): set<Parsed.Ref> {
    match kind
    case Component => ctx.definedComponents
    case Event => ctx.definedEvents
    case EntityProto => ctx.definedEntityProtos
    case System => ctx.definedSystems
  }

  /** Replaces the set of one kind; each kind has a set of its own, so the
      other three and the name are untouched. */
  function WithDefined(ctx: ModuleCheckContext, kind: EcsThing, refs: set<Parsed.Ref>): (ctx': ModuleCheckContext)
    ensures Defined(ctx', kind) == refs
    ensures ctx'.name == ctx.name
    ensures forall k :: k != kind ==> Defined(ctx', k) == Defined(ctx, k)
  {
    match kind
    case Component => ctx.(definedComponents := refs)
    case Event => ctx.(definedEvents := refs)
    case EntityProto => ctx.(definedEntityProtos := refs)
    case System => ctx.(definedSystems := refs)
  }

  /** A fresh context for a module: the name and nothing defined. */
  function NewContext(name: string): (ctx: ModuleCheckContext)
    ensures ctx.name == name
    ensures forall k :: Defined(ctx, k) == {}
  {
    ModuleCheckContext(name, {}, {}, {}, {})
  }

  /** Every reference the context holds is unqualified. */
  predicate OnlyUnqualifiedDefined(ctx: ModuleCheckContext) {
    forall k, r :: r in Defined(ctx, k) ==> r.moduleName.None?
  }

  /** The project symbol table. Being a map, it holds at most one context
      per module name. */
  datatype ModuleCheckTree = ModuleCheckTree(modules: map<string, ModuleCheckContext>)

  function NewTree(): (tree: ModuleCheckTree)
    ensures forall n :: n !in tree.modules
  {
    ModuleCheckTree(map[])
  }

  /** The context registered under a module name, if any. */
  function GetModuleContext(tree: ModuleCheckTree, name: string): (c: Option<ModuleCheckContext>)
    ensures c.Some? <==> name in tree.modules
    ensures c.Some? ==> c.value == tree.modules[name]
  {
    if name in tree.modules then Some(tree.modules[name]) else None
  }

  /** The whole table; it agrees with GetModuleContext on every name. */
  function GetTree(tree: ModuleCheckTree): (m: map<string, ModuleCheckContext>)
    ensures forall n :: n in m <==> GetModuleContext(tree, n).Some?
    ensures forall n :: n in m ==> m[n] == GetModuleContext(tree, n).value
  {
    tree.modules
  }
}

=== FILE: cross_module.dfy ===
/** Cross-module checking: module-name collision detection when a context
    joins the project tree, and resolution of a module-qualified path
    against the tree. */
module CrossModule {
  import opened Wrappers
  import Parsed
  import EcsModel
  import opened CheckContext
  import InModule

  /** A thing looked up in a named module. */
  datatype ModulePath = ModulePath(moduleName: string, thingName: EcsModel.EcsThingRef)

  datatype CrossModuleError =
    | ModuleAlreadyRegistered(name: string)
    | ModuleNotRegistered(name: string)
    | NotDefinedInModule(thing: EcsModel.EcsThingRef, moduleName: string)

  /** Adds `ctx` to the tree under `name`, unless that name is taken. The
      tree is returned with the outcome; on failure it is the tree passed in. */
  function RegisterModule(name: string, ctx: ModuleCheckContext, tree: ModuleCheckTree): (res: (ModuleCheckTree, Outcome<CrossModuleError>))
    ensures res.1.Pass? <==> name !in tree.modules
    ensures res.1.Pass? ==> name in res.0.modules && res.0.modules[name] == ctx
    ensures res.1.Pass? ==> res.0.modules.Keys == tree.modules.Keys + {name}
    ensures res.1.Fail? ==> res.0 == tree && res.1.error == ModuleAlreadyRegistered(name)
    ensures forall n :: n != name && n in tree.modules ==> n in res.0.modules && res.0.modules[n] == tree.modules[n]
  {
    if name in GetTree(tree) then (tree, Fail(ModuleAlreadyRegistered(name)))
    else (ModuleCheckTree(GetTree(tree)[name := ctx]), Pass)
  }

  /** Resolves a path: an unknown module fails before any thing is looked
      up; otherwise the reference must be in that module's set for its own
      kind. */
  function CheckCrossModuleRef(path: ModulePath, tree: ModuleCheckTree): (r: Outcome<CrossModuleError>)
    ensures path.moduleName !in tree.modules ==> r == Fail(ModuleNotRegistered(path.moduleName))
    ensures path.moduleName in tree.modules ==>
      (r.Pass? <==> path.thingName.r in Defined(tree.modules[path.moduleName], KindOf(path.thingName)))
    ensures path.moduleName in tree.modules && r.Fail? ==>
      r.error == NotDefinedInModule(path.thingName, path.moduleName)
  {
    match GetModuleContext(tree, path.moduleName)
    case None => Fail(ModuleNotRegistered(path.moduleName))
    case Some(ctx) =>
      match path.thingName
      case Component(c) =>
        if c !in ctx.definedComponents then Fail(NotDefinedInModule(path.thingName, path.moduleName)) else Pass
      case Event(e) =>
        if e !in ctx.definedEvents then Fail(NotDefinedInModule(path.thingName, path.moduleName)) else Pass
      case EntityProto(p) =>
        if p !in ctx.definedEntityProtos then Fail(NotDefinedInModule(path.thingName, path.moduleName)) else Pass
      case System(s) =>
        if s !in ctx.definedSystems then Fail(NotDefinedInModule(path.thingName, path.moduleName)) else Pass
  }

  /** Only the module's set for the reference's own kind is consulted:
      two trees that agree on whether the module is registered and, if it
      is, on that one set give the same outcome, whatever else they hold. */
  lemma OnlyOwnKindConsulted(path: ModulePath, t1: ModuleCheckTree, t2: ModuleCheckTree)
    requires path.moduleName in t1.modules <==> path.moduleName in t2.modules
    requires path.moduleName in t1.modules ==>
      Defined(t1.modules[path.moduleName], KindOf(path.thingName))
        == Defined(t2.modules[path.moduleName], KindOf(path.thingName))
    ensures CheckCrossModuleRef(path, t1) == CheckCrossModuleRef(path, t2)
  {
  }

  /** Since registration records unqualified references only, a path whose
      reference carries a module qualifier never resolves against contexts
      built by registration. */
  lemma QualifiedRefNeverResolves(path: ModulePath, tree: ModuleCheckTree)
    requires forall n :: n in tree.modules ==> OnlyUnqualifiedDefined(tree.modules[n])
    requires path.thingName.r.moduleName.Some?
    ensures CheckCrossModuleRef(path, tree).Fail?
  {
  }

  /** Two modules, `combat` defining component `Health` and `explore`
      defining component `Position` and entity prototype `Player`: the path
      from `explore` to `combat`'s `Health` resolves, a path into a module
      that was never registered fails as such, and an event named `Health`
      is not found. */
  lemma CombatExploreExample()
    ensures var combat := InModule.TryRegister("Health", Component, NewContext("combat")).0;
      var e1 := InModule.TryRegister("Position", Component, NewContext("explore")).0;
      var explore := InModule.TryRegister("Player", EntityProto, e1).0;
      var t1 := RegisterModule("combat", combat, NewTree()).0;
      var tree := RegisterModule("explore", explore, t1).0;
      var health := EcsModel.Component(Parsed.Ref("Health", None));
      && CheckCrossModuleRef(ModulePath("combat", health), tree) == Pass
      && CheckCrossModuleRef(ModulePath("nope", health), tree) == Fail(ModuleNotRegistered("nope"))
      && CheckCrossModuleRef(ModulePath("combat", EcsModel.Event(Parsed.Ref("Health", None))), tree).Fail?
  {
  }

  /** The default cross-module check accepts every context. */
  function CheckCrossModule(ctx: ModuleCheckContext): (r: Outcome<CrossModuleError>)
    ensures r.Pass?
  {
    Pass
  }
}

=== FILE: ecs_module.dfy ===
/** The reference model: a closed union over the four kinds of reference,
    with the accessors diagnostics use, and the module record with its
    field-setting builders. */
module EcsModel {
  import opened Wrappers
  import Parsed

  /** A reference to one of the four kinds of definable thing. Every
      variant wraps the same reference shape, reachable as `r`. */
  datatype EcsThingRef =
    | Component(r: Parsed.ComponentRef)
    | Event(r: Parsed.EventRef)
    | EntityProto(r: Parsed.EntityProtoRef)
    | System(r: Parsed.SystemRef)

  /** The textual form of a reference: `name`, or `module::name` when it
      is qualified. */
  function RefDisplay(r: Parsed.Ref): string {
    match r.moduleName
    case None => r.name
    case Some(m) => m + "::" + r.name
  }

  /** Displaying a thing reference displays the reference it wraps,
      whatever the kind. */
  function Display(t: EcsThingRef): (s: string)
    ensures s == RefDisplay(t.r)
  {
    match t
    case Component(c) => RefDisplay(c)
    case Event(e) => RefDisplay(e)
    case EntityProto(p) => RefDisplay(p)
    case System(s) => RefDisplay(s)
  }

  /** The name of the wrapped reference, whatever the kind. */
  function Name(t: EcsThingRef): (n: string)
    ensures n == t.r.name
  {
    match t
    case Component(c) => c.name
    case Event(e) => e.name
    case EntityProto(p) => p.name
    case System(s) => s.name
  }

  function QualifierOrEmpty(m: Option<string>): string {
    match m
    case None => ""
    case Some(s) => s
  }

  /** The defining module of the wrapped reference; the empty string when
      the reference is unqualified. */
  function ModuleName(t: EcsThingRef): (m: string)
    ensures t.r.moduleName.Some? ==> m == t.r.moduleName.value
    ensures t.r.moduleName.None? ==> m == ""
  {
    match t
    case Component(c) => QualifierOrEmpty(c.moduleName)
    case Event(e) => QualifierOrEmpty(e.moduleName)
    case EntityProto(p) => QualifierOrEmpty(p.moduleName)
    case System(s) => QualifierOrEmpty(s.moduleName)
  }

  /** The word diagnostics use for each kind. */
  function KindLabel(t: EcsThingRef): string {
    match t
    case Component(_) => "Component"
    case Event(_) => "Event"
    case EntityProto(_) => "Entity Proto"
    case System(_) => "System"
  }

  /** The diagnostic description: the kind label, a space, then the
      reference's display between double quotes. */
  function AsErrorStr(t: EcsThingRef): (s: string)
    ensures |s| == |KindLabel(t)| + |Display(t)| + 3
    ensures s[..|KindLabel(t)|] == KindLabel(t)
    ensures s[|KindLabel(t)|] == ' ' && s[|KindLabel(t)| + 1] == '"'
    ensures s[|KindLabel(t)| + 2 .. |s| - 1] == Display(t)
    ensures s[|s| - 1] == '"'
  {
    match t
    case Component(c) => "Component \"" + RefDisplay(c) + "\""
    case Event(e) => "Event \"" + RefDisplay(e) + "\""
    case EntityProto(p) => "Entity Proto \"" + RefDisplay(p) + "\""
    case System(s) => "System \"" + RefDisplay(s) + "\""
  }

  predicate SameKind(a: EcsThingRef, b: EcsThingRef) {
    (a.Component? && b.Component?) || (a.Event? && b.Event?) ||
    (a.EntityProto? && b.EntityProto?) || (a.System? && b.System?)
  }

  /** Two descriptions agree only for references of the same kind with the
      same display: the description never confuses kinds. */
  lemma {:induction false} AsErrorStrDistinguishesKinds(a: EcsThingRef, b: EcsThingRef)
    requires AsErrorStr(a) == AsErrorStr(b)
    ensures SameKind(a, b)
    ensures Display(a) == Display(b)
  {
    var s := AsErrorStr(a);
    var la, lb := KindLabel(a), KindLabel(b);
    assert s[..|la|] == la && s[..|lb|] == lb;
    // The first two characters settle the kind: "Co", "Ev", "En", "Sy".
    assert s[0] == la[0] && s[0] == lb[0];
    assert s[1] == la[1] && s[1] == lb[1];
    assert SameKind(a, b);
    assert la == lb;
  }

  // ---------------------------------------------------------------------
  // Module record
  // ---------------------------------------------------------------------

  datatype EcsModule = EcsModule(
    name: string,
    components: Option<seq<Parsed.Component>>,
    events: Option<seq<Parsed.Event>>,
    entityProtos: Option<seq<Parsed.EntityProto>>,
    systems: Option<seq<Parsed.System>>)

  /** A module with a name and no part lists. */
  function NewEmpty(name: string): (m: EcsModule)
    ensures m.name == name
    ensures m.components.None? && m.events.None? && m.entityProtos.None? && m.systems.None?
  {
    EcsModule(name, None, None, None, None)
  }

  function WithComponents(m: EcsModule, components: seq<Parsed.Component>): (m': EcsModule)
    ensures m'.components == Some(components)
    ensures m'.name == m.name && m'.events == m.events
    ensures m'.entityProtos == m.entityProtos && m'.systems == m.systems
  {
    m.(components := Some(components))
  }

  function WithEvents(m: EcsModule, events: seq<Parsed.Event>): (m': EcsModule)
    ensures m'.events == Some(events)
    ensures m'.name == m.name && m'.components == m.components
    ensures m'.entityProtos == m.entityProtos && m'.systems == m.systems
  {
    m.(events := Some(events))
  }

  function WithEntityProtos(m: EcsModule, entityProtos: seq<Parsed.EntityProto>): (m': EcsModule)
    ensures m'.entityProtos == Some(entityProtos)
    ensures m'.name == m.name && m'.components == m.components
    ensures m'.events == m.events && m'.systems == m.systems
  {
    m.(entityProtos := Some(entityProtos))
  }

  function WithSystems(m: EcsModule, systems: seq<Parsed.System>): (m': EcsModule)
    ensures m'.systems == Some(systems)
    ensures m'.name == m.name && m'.components == m.components
    ensures m'.events == m.events && m'.entityProtos == m.entityProtos
  {
    m.(systems := Some(systems))
  }

  /** Builders for different lists commute, so the order in which a module
      is assembled does not matter. */
  lemma BuildersCommute(
    m: EcsModule,
    cs: seq<Parsed.Component>, es: seq<Parsed.Event>,
    ps: seq<Parsed.EntityProto>, ss: seq<Parsed.System>)
    ensures WithEvents(WithComponents(m, cs), es) == WithComponents(WithEvents(m, es), cs)
    ensures WithEntityProtos(WithComponents(m, cs), ps) == WithComponents(WithEntityProtos(m, ps), cs)
    ensures WithSystems(WithComponents(m, cs), ss) == WithComponents(WithSystems(m, ss), cs)
    ensures WithEntityProtos(WithEvents(m, es), ps) == WithEvents(WithEntityProtos(m, ps), es)
    ensures WithSystems(WithEvents(m, es), ss) == WithEvents(WithSystems(m, ss), es)
    ensures WithSystems(WithEntityProtos(m, ps), ss) == WithEntityProtos(WithSystems(m, ss), ps)
  {
  }
}

=== FILE: in_module.dfy ===
/** In-module registration: adding a definition to its module's context,
    rejecting a second definition of the same name and kind. */
module InModule {
  import opened Wrappers
  import Parsed
  import opened CheckContext

  datatype InModuleError = AlreadyDefined(kind: EcsThing, name: string)

  /** The reference a definition is recorded under: always unqualified. */
  function Unqualified(name: string): Parsed.Ref {
    Parsed.Ref(name, None)
  }

  /** Registers `name` under `kind`. The context is returned together with
      the outcome; on failure it is the context passed in. */
  function TryRegister(name: string, kind: EcsThing, ctx: ModuleCheckContext): (res: (ModuleCheckContext, Outcome<InModuleError>))
    ensures res.1.Pass? <==> Unqualified(name) !in Defined(ctx, kind)
    ensures res.1.Pass? ==> Defined(res.0, kind) == Defined(ctx, kind) + {Unqualified(name)}
    ensures res.1.Pass? ==> |Defined(res.0, kind)| == |Defined(ctx, kind)| + 1
    ensures res.1.Fail? ==> res.0 == ctx && res.1.error == AlreadyDefined(kind, name)
    ensures res.0.name == ctx.name
    ensures forall k :: k != kind ==> Defined(res.0, k) == Defined(ctx, k)
  {
    var r := Unqualified(name);
    if r in Defined(ctx, kind) then (ctx, Fail(AlreadyDefined(kind, name)))
    else (WithDefined(ctx, kind, Defined(ctx, kind) + {r}), Pass)
  }

  /** Registration only ever records unqualified references. */
  lemma TryRegisterKeepsUnqualified(name: string, kind: EcsThing, ctx: ModuleCheckContext)
    requires OnlyUnqualifiedDefined(ctx)
    ensures OnlyUnqualifiedDefined(TryRegister(name, kind, ctx).0)
  {
  }

  /** Registering the same name twice under the same kind: the first call
      succeeds, the second fails and changes nothing. */
  lemma RegisterTwice(name: string, kind: EcsThing, ctx: ModuleCheckContext)
    requires Unqualified(name) !in Defined(ctx, kind)
    ensures TryRegister(name, kind, ctx).1 == Pass
    ensures var once := TryRegister(name, kind, ctx).0;
      TryRegister(name, kind, once) == (once, Fail(AlreadyDefined(kind, name)))
  {
  }

  /** Uniqueness is per kind: a name free in all four sets can be registered
      once under each kind, and then is defined under all four. */
  lemma RegisterUnderEveryKind(name: string, ctx: ModuleCheckContext)
    requires forall k :: Unqualified(name) !in Defined(ctx, k)
    ensures var c1 := TryRegister(name, Component, ctx);
      var c2 := TryRegister(name, Event, c1.0);
      var c3 := TryRegister(name, EntityProto, c2.0);
      var c4 := TryRegister(name, System, c3.0);
      && c1.1.Pass? && c2.1.Pass? && c3.1.Pass? && c4.1.Pass?
      && forall k :: Defined(c4.0, k) == Defined(ctx, k) + {Unqualified(name)}
  {
  }

  /** The default in-module check accepts and changes nothing. */
  function CheckInModule(ctx: ModuleCheckContext): (res: (ModuleCheckContext, Outcome<InModuleError>))
    ensures res.0 == ctx && res.1.Pass?
  {
    (ctx, Pass)
  }
}

=== FILE: loader.dfy ===
/** Loading, with file-system access abstracted away: what each file read
    and parse produced is an input, and the model is the policy that turns
    those per-item results into a module or a project. The policy is the
    same everywhere: no failure gives the values in order, one failure is
    returned as it is, several are wrapped in `Multiple` in the order met. */
module Loader {
  import opened Wrappers
  import Parsed
  import EcsModel

  datatype ModuleFileLoaderError =
    | IoError(detail: string)
    | IllegalToml(detail: string)
    | ConversionError(cause: Parsed.ConversionError)
    | Multiple(errors: seq<ModuleFileLoaderError>)

  datatype ProjectLoaderError =
    | MissingWorld
    | MissingModule(name: string)
    | FileError(error: ModuleFileLoaderError)

  type LoadResult<T> = Result<T, ModuleFileLoaderError>

  // ---------------------------------------------------------------------
  // The 0/1/many aggregation policy
  // ---------------------------------------------------------------------

  /** The errors among the results, in the order met. */
  function Failures<T>(rs: seq<LoadResult<T>>): seq<ModuleFileLoaderError> {
    if |rs| == 0 then []
    else Failures(rs[..|rs| - 1]) + (if rs[|rs| - 1].Failure? then [rs[|rs| - 1].error] else [])
  }

  /** The values among the results, in the order met. */
  function Successes<T>(rs: seq<LoadResult<T>>): seq<T> {
    if |rs| == 0 then []
    else Successes(rs[..|rs| - 1]) + (if rs[|rs| - 1].Success? then [rs[|rs| - 1].value] else [])
  }

  /** Errors are collected in encounter order: the errors of a concatenation
      are the errors of the first part followed by those of the second. */
  lemma {:induction false} FailuresAppend<T>(a: seq<LoadResult<T>>, b: seq<LoadResult<T>>)
    ensures Failures(a + b) == Failures(a) + Failures(b)
    decreases |b|
  {
    if |b| == 0 {
      assert a + b == a;
    } else {
      var b' := b[..|b| - 1];
      assert (a + b)[..|a + b| - 1] == a + b';
      FailuresAppend(a, b');
    }
  }

  /** An item's error is among the collected errors exactly when that item
      failed with it. */
  lemma {:induction false} FailuresMembers<T>(rs: seq<LoadResult<T>>, e: ModuleFileLoaderError)
    ensures e in Failures(rs) <==> exists i :: 0 <= i < |rs| && rs[i] == Failure(e)
  {
    if |rs| > 0 {
      var init := rs[..|rs| - 1];
      FailuresMembers(init, e);
      if e in Failures(init) {
        var i :| 0 <= i < |init| && init[i] == Failure(e);
        assert rs[i] == Failure(e);
      }
      if exists i :: 0 <= i < |rs| && rs[i] == Failure(e) {
        var i :| 0 <= i < |rs| && rs[i] == Failure(e);
        if i < |rs| - 1 {
          assert init[i] == Failure(e);
        }
      }
    }
  }

  /** No errors are collected exactly when every item succeeded, and then
      every value is collected, in order. */
  lemma {:induction false} NoFailures<T>(rs: seq<LoadResult<T>>)
    ensures |Failures(rs)| == 0 <==> forall i :: 0 <= i < |rs| ==> rs[i].Success?
    ensures |Failures(rs)| == 0 ==>
      |Successes(rs)| == |rs| && forall i :: 0 <= i < |rs| ==> Successes(rs)[i] == rs[i].value
  {
    if |rs| > 0 {
      var init := rs[..|rs| - 1];
      NoFailures(init);
      assert forall i :: 0 <= i < |init| ==> init[i] == rs[i];
    }
  }

  /** A single error is returned as it is; several are wrapped. */
  function Combine(errors: seq<ModuleFileLoaderError>): (e: ModuleFileLoaderError)
    requires |errors| > 0
    ensures |errors| == 1 ==> e == errors[0]
    ensures |errors| > 1 ==> e == Multiple(errors)
  {
    if |errors| == 1 then errors[0] else Multiple(errors)
  }

  /** All the values when every item succeeded; otherwise the combined
      errors, and no values at all. */
  function Gather<T>(rs: seq<LoadResult<T>>): (r: LoadResult<seq<T>>)
    ensures r.Success? <==> forall i :: 0 <= i < |rs| ==> rs[i].Success?
    ensures r.Success? ==> |r.value| == |rs| && forall i :: 0 <= i < |rs| ==> r.value[i] == rs[i].value
    ensures r.Failure? ==> |Failures(rs)| > 0 && r.error == Combine(Failures(rs))
  {
    NoFailures(rs);
    if |Failures(rs)| == 0 then Success(Successes(rs)) else Failure(Combine(Failures(rs)))
  }

  /** The loop that collects results one by one computes Gather. */
  method CollectResults<T>(rs: seq<LoadResult<T>>) returns (r: LoadResult<seq<T>>)
    ensures r == Gather(rs)
  {
    var parts: seq<T> := [];
    var errors: seq<ModuleFileLoaderError> := [];
    for i := 0 to |rs|
      invariant parts == Successes(rs[..i])
      invariant errors == Failures(rs[..i])
    {
      assert rs[..i + 1][..i] == rs[..i];
      match rs[i]
      case Success(part) => parts := parts + [part];
      case Failure(error) => errors := errors + [error];
    }
    assert rs[..|rs|] == rs;
    if |errors| != 0 {
      if |errors| == 1 {
        r := Failure(errors[0]);
      } else {
        r := Failure(Multiple(errors));
      }
      return;
    }
    r := Success(parts);
  }

  /** Exactly one failing item: its error is returned unwrapped. */
  lemma {:induction false} SingleFailureUnwrapped<T>(rs: seq<LoadResult<T>>, k: int)
    requires 0 <= k < |rs| && rs[k].Failure?
    requires forall j :: 0 <= j < |rs| && j != k ==> rs[j].Success?
    ensures Gather(rs) == Failure(rs[k].error)
  {
    var before, after := rs[..k], rs[k + 1..];
    assert rs == before + [rs[k]] + after;
    NoFailures(before);
    NoFailures(after);
    assert Failures([rs[k]]) == Failures([rs[k]][..0]) + [rs[k].error];
    FailuresAppend(before, [rs[k]]);
    FailuresAppend(before + [rs[k]], after);
  }

  /** Two or more failing items: the result wraps every error, and each
      failing item's error is in it. */
  lemma {:induction false} SeveralFailuresWrapped<T>(rs: seq<LoadResult<T>>, i: int, j: int)
    requires 0 <= i < j < |rs| && rs[i].Failure? && rs[j].Failure?
    ensures Gather(rs) == Failure(Multiple(Failures(rs)))
    ensures forall k :: 0 <= k < |rs| && rs[k].Failure? ==> rs[k].error in Failures(rs)
  {
    var front, back := rs[..j], rs[j..];
    assert rs == front + back;
    FailuresAppend(front, back);
    FailuresMembers(front, rs[i].error);
    assert front[i] == rs[i];
    FailuresMembers(back, rs[j].error);
    assert back[0] == rs[j];
    assert |Failures(front)| > 0 && |Failures(back)| > 0;
    forall k | 0 <= k < |rs| && rs[k].Failure?
      ensures rs[k].error in Failures(rs)
    {
      FailuresMembers(rs, rs[k].error);
    }
  }

  /** The parts of every item, concatenated in item order. */
  function Flatten<T>(parts: seq<seq<T>>): seq<T> {
    if |parts| == 0 then [] else parts[0] + Flatten(parts[1..])
  }

  // ---------------------------------------------------------------------
  // Part directories and files
  // ---------------------------------------------------------------------

  /** Loads every listed file of a part directory, in listing order. */
  function LoadEach<R, T>(paths: seq<R>, load: R -> LoadResult<seq<T>>): (rs: seq<LoadResult<seq<T>>>)
    ensures |rs| == |paths|
    ensures forall i :: 0 <= i < |paths| ==> rs[i] == load(paths[i])
  {
    seq(|paths|, i requires 0 <= i < |paths| => load(paths[i]))
  }

  /** One part directory: its listing, then `load` applied to each listed
      entry. Listing can only fail to read the directory, and that read
      error fails the directory as an `IoError`; a missing or
      empty directory lists nothing and yields no list at all. */
  function LoadParts<R, T>(listing: Result<seq<R>, string>, load: R -> LoadResult<seq<T>>): (r: LoadResult<Option<seq<T>>>)
    ensures listing.Failure? ==> r == Failure(IoError(listing.error))
    ensures listing.Success? && |listing.value| == 0 ==> r == Success(None)
    ensures listing.Success? && |listing.value| > 0 ==>
      (r.Success? <==> forall i :: 0 <= i < |listing.value| ==> load(listing.value[i]).Success?)
    ensures listing.Success? && |listing.value| > 0 && r.Success? ==>
      r.value == Some(Flatten(Gather(LoadEach(listing.value, load)).value))
    ensures listing.Success? && r.Failure? ==> r.error == Gather(LoadEach(listing.value, load)).error
  {
    match listing
    case Failure(e) => Failure(IoError(e))
    case Success(paths) =>
      if |paths| == 0 then Success(None)
      else
        var parts :- Gather(LoadEach(paths, load));
        Success(Some(Flatten(parts)))
  }

  /** A component file: every component in it is converted. */
  function LoadComponentFile(file: LoadResult<seq<Parsed.RawComponent>>): (r: LoadResult<seq<Parsed.Component>>)
    ensures r.Success? <==> file.Success?
    ensures r.Success? ==>
      |r.value| == |file.value| &&
      forall i :: 0 <= i < |file.value| ==> r.value[i] == Parsed.ComponentFrom(file.value[i])
    ensures r.Failure? ==> r.error == file.error
  {
    var raws :- file;
    Success(seq(|raws|, i requires 0 <= i < |raws| => Parsed.ComponentFrom(raws[i])))
  }

  /** An event file: every event in it is converted. */
  function LoadEventFile(file: LoadResult<seq<Parsed.RawEvent>>): (r: LoadResult<seq<Parsed.Event>>)
    ensures r.Success? <==> file.Success?
    ensures r.Success? ==>
      |r.value| == |file.value| &&
      forall i :: 0 <= i < |file.value| ==> r.value[i] == Parsed.EventFrom(file.value[i])
    ensures r.Failure? ==> r.error == file.error
  {
    var raws :- file;
    Success(seq(|raws|, i requires 0 <= i < |raws| => Parsed.EventFrom(raws[i])))
  }

  /** Entity prototypes are converted one by one under the aggregation
      policy; the conversion itself cannot fail, so neither does this. */
  function ConvertEntityProtos(raws: seq<Parsed.RawEntityProto>): (r: LoadResult<seq<Parsed.EntityProto>>)
    ensures r.Success?
    ensures |r.value| == |raws|
    ensures forall i :: 0 <= i < |raws| ==> r.value[i] == Parsed.EntityProtoFrom(raws[i])
  {
    Gather(seq(|raws|, i requires 0 <= i < |raws| => Success(Parsed.EntityProtoFrom(raws[i]))))
  }

  function LoadEntityProtoFile(file: LoadResult<seq<Parsed.RawEntityProto>>): (r: LoadResult<seq<Parsed.EntityProto>>)
    ensures r.Success? <==> file.Success?
    ensures r.Success? ==>
      |r.value| == |file.value| &&
      forall i :: 0 <= i < |file.value| ==> r.value[i] == Parsed.EntityProtoFrom(file.value[i])
    ensures r.Failure? ==> r.error == file.error
  {
    var raws :- file;
    ConvertEntityProtos(raws)
  }

  /** A system file holds exactly one system; a conversion failure becomes
      a conversion error of the file. */
  function LoadSystemFile(file: LoadResult<Parsed.RawSystem>): (r: LoadResult<seq<Parsed.System>>)
    ensures r.Success? <==> file.Success? && Parsed.SystemTryFrom(file.value).Success?
    ensures r.Success? ==> r.value == [Parsed.SystemTryFrom(file.value).value]
    ensures file.Failure? ==> r.error == file.error
    ensures file.Success? && r.Failure? ==> r.error == ConversionError(Parsed.SystemTryFrom(file.value).error)
  {
    var raw :- file;
    match Parsed.SystemTryFrom(raw)
    case Success(system) => Success([system])
    case Failure(e) => Failure(ConversionError(e))
  }

  // ---------------------------------------------------------------------
  // Modules
  // ---------------------------------------------------------------------

  /** What a module directory holds: for each part directory, its listing,
      each listed entry being the read and parse result of one file. */
  datatype ModuleFiles = ModuleFiles(
    systems: Result<seq<LoadResult<Parsed.RawSystem>>, string>,
    components: Result<seq<LoadResult<seq<Parsed.RawComponent>>>, string>,
    events: Result<seq<LoadResult<seq<Parsed.RawEvent>>>, string>,
    entityProtos: Result<seq<LoadResult<seq<Parsed.RawEntityProto>>>, string>)

  const NoFiles: ModuleFiles := ModuleFiles(Success([]), Success([]), Success([]), Success([]))

  function SystemParts(files: ModuleFiles): LoadResult<Option<seq<Parsed.System>>> {
    LoadParts(files.systems, LoadSystemFile)
  }

  function ComponentParts(files: ModuleFiles): LoadResult<Option<seq<Parsed.Component>>> {
    LoadParts(files.components, LoadComponentFile)
  }

  function EventParts(files: ModuleFiles): LoadResult<Option<seq<Parsed.Event>>> {
    LoadParts(files.events, LoadEventFile)
  }

  function EntityProtoParts(files: ModuleFiles): LoadResult<Option<seq<Parsed.EntityProto>>> {
    LoadParts(files.entityProtos, LoadEntityProtoFile)
  }

  /** Loads the part directories in the order systems, components, events,
      entity prototypes, stopping at the first one that fails. */
  function LoadModule(name: string, files: ModuleFiles): (r: LoadResult<EcsModel.EcsModule>)
    ensures r.Success? <==>
      && SystemParts(files).Success? && ComponentParts(files).Success?
      && EventParts(files).Success? && EntityProtoParts(files).Success?
    ensures r.Success? ==>
      && r.value.name == name
      && r.value.systems == SystemParts(files).value
      && r.value.components == ComponentParts(files).value
      && r.value.events == EventParts(files).value
      && r.value.entityProtos == EntityProtoParts(files).value
    ensures SystemParts(files).Failure? ==> r == Failure(SystemParts(files).error)
    ensures SystemParts(files).Success? && ComponentParts(files).Failure? ==>
      r == Failure(ComponentParts(files).error)
    ensures SystemParts(files).Success? && ComponentParts(files).Success? && EventParts(files).Failure? ==>
      r == Failure(EventParts(files).error)
    ensures (SystemParts(files).Success? && ComponentParts(files).Success? && EventParts(files).Success?
             && EntityProtoParts(files).Failure?) ==>
      r == Failure(EntityProtoParts(files).error)
  {
    var systems :- SystemParts(files);
    var components :- ComponentParts(files);
    var events :- EventParts(files);
    var entityProtos :- EntityProtoParts(files);
    Success(EcsModel.EcsModule(name, components, events, entityProtos, systems))
  }

  /** A part directory whose listing fails fails the whole module once the
      directories before it have loaded: here, the component directory. */
  lemma ComponentListingFailureFailsModule(name: string, files: ModuleFiles)
    requires SystemParts(files).Success?
    requires files.components.Failure?
    ensures LoadModule(name, files) == Failure(IoError(files.components.error))
  {
  }

  /** A module without part directories loads as the empty module. */
  lemma EmptyModuleDirectory(name: string)
    ensures LoadModule(name, NoFiles) == Success(EcsModel.NewEmpty(name))
  {
  }

  // ---------------------------------------------------------------------
  // Projects
  // ---------------------------------------------------------------------

  /** The project description: each module's name and directory, in the
      order they are listed. */
  datatype World = World(modules: seq<(string, string)>)

  datatype Project = Project(world: World, modules: seq<EcsModel.EcsModule>)

  /** The files of a module directory; a directory that is not there has
      no part directories. */
  function ModuleFilesAt(dirs: map<string, ModuleFiles>, path: string): ModuleFiles {
    if path in dirs then dirs[path] else NoFiles
  }

  /** The load result of every module the world lists, in order. */
  function ModuleResults(w: World, dirs: map<string, ModuleFiles>): seq<LoadResult<EcsModel.EcsModule>> {
    seq(|w.modules|, i requires 0 <= i < |w.modules| =>
      LoadModule(w.modules[i].0, ModuleFilesAt(dirs, w.modules[i].1)))
  }

  /** Loads every module the world lists under the aggregation policy; the
      modules keep the world's order. A failure to read or parse the world
      file is a file error like any module's, so neither `MissingWorld` nor
      `MissingModule` is ever produced. */
  function LoadProject(world: Result<World, ModuleFileLoaderError>, dirs: map<string, ModuleFiles>): (r: Result<Project, ProjectLoaderError>)
    ensures world.Failure? ==> r == Failure(FileError(world.error))
    ensures r.Failure? ==> r.error.FileError?
    ensures world.Success? ==>
      (r.Success? <==> forall i :: 0 <= i < |world.value.modules| ==> ModuleResults(world.value, dirs)[i].Success?)
    ensures r.Success? ==>
      && r.value.world == world.value
      && |r.value.modules| == |world.value.modules|
      && forall i :: 0 <= i < |world.value.modules| ==>
           && r.value.modules[i] == ModuleResults(world.value, dirs)[i].value
           && r.value.modules[i].name == world.value.modules[i].0
    ensures world.Success? && r.Failure? ==>
      r.error == FileError(Gather(ModuleResults(world.value, dirs)).error)
  {
    match world
    case Failure(e) => Failure(FileError(e))
    case Success(w) =>
      match Gather(ModuleResults(w, dirs))
      case Success(modules) => Success(Project(w, modules))
      case Failure(e) => Failure(FileError(e))
  }
}

=== FILE: parsed.dfy ===
/** The typed definitions the checker works on, and the conversion rules
    that turn the raw, deserialised configuration records into them:
    type-string classification, reference construction, handler priority
    and update interval validation, and all-or-nothing system conversion. */
module Parsed {
  import opened Wrappers
  import Toml

  // ---------------------------------------------------------------------
  // Types a field can declare
  // ---------------------------------------------------------------------

  datatype PrimitiveType = Float | Int | Bool | Str

  datatype AethaumType = Primitive(primitive: PrimitiveType) | Custom(typeName: string)

  /** Only a type named by the user is custom. */
  function IsCustom(t: AethaumType): (b: bool)
    ensures b <==> t.Custom?
  {
    match t
    case Primitive(_) => false
    case Custom(_) => true
  }

  /** Every type is either primitive or custom, never both. */
  function IsPrimitive(t: AethaumType): (b: bool)
    ensures b != IsCustom(t)
  {
    match t
    case Primitive(_) => true
    case Custom(_) => false
  }

  /** How a primitive type is spelt in a field's `type` entry. */
  function PrimitiveName(p: PrimitiveType): string {
    match p
    case Float => "float"
    case Int => "int"
    case Bool => "bool"
    case Str => "str"
  }

  predicate IsPrimitiveName(s: string) {
    s == "float" || s == "int" || s == "bool" || s == "str"
  }

  /** The spelling of a type; FromTypeStr reads it back. */
  function TypeStr(t: AethaumType): string {
    match t
    case Primitive(p) => PrimitiveName(p)
    case Custom(s) => s
  }

  /** Classifies a type spelling: the four primitive keywords, and
      everything else as a custom type carrying the spelling itself. */
  function FromTypeStr(s: string): (t: AethaumType)
    ensures TypeStr(t) == s
    ensures t.Custom? <==> !IsPrimitiveName(s)
  {
    if s == "float" then Primitive(Float)
    else if s == "int" then Primitive(Int)
    else if s == "bool" then Primitive(Bool)
    else if s == "str" then Primitive(Str)
    else Custom(s)
  }

  /** Reading back the spelling of a type gives the type again, unless it is
      a custom type named like a primitive keyword. */
  lemma FromTypeStrOfTypeStr(t: AethaumType)
    requires !(t.Custom? && IsPrimitiveName(t.typeName))
    ensures FromTypeStr(TypeStr(t)) == t
  {
  }

  // ---------------------------------------------------------------------
  // References
  // ---------------------------------------------------------------------

  /** A reference to a component, event, entity prototype or system,
      optionally qualified by the module that defines it. Equality is
      structural, so `Ref(n, None)` and `Ref(n, Some(m))` are different. */
  datatype Ref = Ref(name: string, moduleName: Option<string>)

  type ComponentRef = Ref
  type EventRef = Ref
  type EntityProtoRef = Ref
  type SystemRef = Ref

  /** Building a reference from a string keeps the whole string as the name;
      no `::` splitting happens here. */
  function RefFrom(s: string): Ref {
    Ref(s, None)
  }

  function Names(refs: seq<Ref>): (names: seq<string>)
    ensures |names| == |refs|
    ensures forall i :: 0 <= i < |refs| ==> names[i] == refs[i].name
  {
    seq(|refs|, i requires 0 <= i < |refs| => refs[i].name)
  }

  predicate AllUnqualified(refs: seq<Ref>) {
    forall i :: 0 <= i < |refs| ==> refs[i].moduleName.None?
  }

  /** Converts a list of names into references, one per name, in order. */
  function RefsFrom(names: seq<string>): (refs: seq<Ref>)
    ensures Names(refs) == names
    ensures AllUnqualified(refs)
  {
    seq(|names|, i requires 0 <= i < |names| => RefFrom(names[i]))
  }

  /** The names of a list of unqualified references determine the list. */
  lemma UnqualifiedRefsDeterminedByNames(a: seq<Ref>, b: seq<Ref>)
    requires AllUnqualified(a) && AllUnqualified(b)
    requires Names(a) == Names(b)
    ensures a == b
  {
  }

  // ---------------------------------------------------------------------
  // Definitions
  // ---------------------------------------------------------------------

  datatype ComponentField = ComponentField(
    name: string,
    typeSpec: AethaumType,
    defaultValue: Option<Toml.Value>,
    description: Option<string>)

  datatype Component = Component(
    name: string,
    description: Option<string>,
    fields: Option<seq<ComponentField>>)

  datatype ComponentConstraint = ComponentConstraint(
    included: Option<seq<ComponentRef>>,
    excluded: Option<seq<ComponentRef>>)

  datatype EventField = EventField(
    name: string,
    typeSpec: AethaumType,
    description: Option<string>)

  datatype Event = Event(
    name: string,
    description: Option<string>,
    fields: Option<seq<EventField>>)

  datatype EntityProto = EntityProto(
    name: string,
    description: Option<string>,
    components: seq<ComponentRef>)

  /** The descriptive header of a system, passed through unchanged. */
  datatype SystemNormal = SystemNormal(
    name: string,
    description: Option<string>,
    category: Option<string>,
    priority: Option<Toml.Value>)

  datatype SystemQuery = SystemQuery(
    name: string,
    description: Option<string>,
    componentConstraint: ComponentConstraint)

  /** Script bodies are opaque text. */
  type LuaCode = string

  const U32_MODULUS: int := 0x1_0000_0000

  type U32 = n: int | 0 <= n < U32_MODULUS

  datatype SystemEventHandler = SystemEventHandler(
    watchFor: string,
    priority: U32,
    logic: Option<LuaCode>)

  /** A whole number of seconds, or the duration denoted by a float
      literal (kept opaque). */
  datatype Interval = Seconds(secs: nat) | FractionalSeconds(literal: Toml.Float64)

  datatype SystemUpdate = SystemUpdate(
    interval: Interval,
    condition: Option<LuaCode>,
    logic: Option<LuaCode>)

  datatype System = System(
    normal: SystemNormal,
    queries: seq<SystemQuery>,
    update: Option<SystemUpdate>,
    eventHandlers: seq<SystemEventHandler>)

  // ---------------------------------------------------------------------
  // Raw records, as deserialised
  // ---------------------------------------------------------------------

  datatype RawComponentField = RawComponentField(
    name: string,
    typeSpec: string,
    defaultValue: Option<Toml.Value>,
    description: Option<string>)

  datatype RawComponent = RawComponent(
    name: string,
    description: Option<string>,
    fields: Option<seq<RawComponentField>>)

  datatype RawEventField = RawEventField(
    name: string,
    typeSpec: string,
    description: Option<string>)

  datatype RawEvent = RawEvent(
    name: string,
    description: Option<string>,
    fields: Option<seq<RawEventField>>)

  datatype RawEntityProto = RawEntityProto(
    name: string,
    description: Option<string>,
    components: seq<string>)

  datatype RawSystemQuery = RawSystemQuery(
    name: string,
    description: Option<string>,
    componentsInclude: Option<seq<string>>,
    componentsExclude: Option<seq<string>>)

  datatype RawSystemEventHandler = RawSystemEventHandler(
    watchFor: string,
    priority: Option<Toml.Value>,
    logic: Option<string>)

  datatype RawSystemUpdate = RawSystemUpdate(
    interval: Toml.Value,
    condition: Option<string>,
    logic: Option<string>)

  datatype RawSystem = RawSystem(
    normal: SystemNormal,
    queries: seq<RawSystemQuery>,
    update: Option<RawSystemUpdate>,
    eventHandlers: seq<RawSystemEventHandler>)

  datatype ConversionError =
    | NegativePriority
    | PriorityNotInteger
    | IntervalNotPositive
    | IntervalNotNumber

  // ---------------------------------------------------------------------
  // Infallible conversions
  // ---------------------------------------------------------------------

  function ComponentFieldFrom(raw: RawComponentField): (f: ComponentField)
    ensures f.name == raw.name && f.description == raw.description
    ensures f.defaultValue == raw.defaultValue
    ensures TypeStr(f.typeSpec) == raw.typeSpec
    ensures f.typeSpec.Custom? <==> !IsPrimitiveName(raw.typeSpec)
  {
    ComponentField(raw.name, FromTypeStr(raw.typeSpec), raw.defaultValue, raw.description)
  }

  function ComponentFrom(raw: RawComponent): (c: Component)
    ensures c.name == raw.name && c.description == raw.description
    ensures c.fields.Some? <==> raw.fields.Some?
    ensures raw.fields.Some? ==>
      |c.fields.value| == |raw.fields.value| &&
      forall i :: 0 <= i < |raw.fields.value| ==>
        c.fields.value[i] == ComponentFieldFrom(raw.fields.value[i])
  {
    var fields := match raw.fields
      case None => None
      case Some(fs) => Some(seq(|fs|, i requires 0 <= i < |fs| => ComponentFieldFrom(fs[i])));
    Component(raw.name, raw.description, fields)
  }

  function EventFieldFrom(raw: RawEventField): (f: EventField)
    ensures f.name == raw.name && f.description == raw.description
    ensures TypeStr(f.typeSpec) == raw.typeSpec
    ensures f.typeSpec.Custom? <==> !IsPrimitiveName(raw.typeSpec)
  {
    EventField(raw.name, FromTypeStr(raw.typeSpec), raw.description)
  }

  function EventFrom(raw: RawEvent): (e: Event)
    ensures e.name == raw.name && e.description == raw.description
    ensures e.fields.Some? <==> raw.fields.Some?
    ensures raw.fields.Some? ==>
      |e.fields.value| == |raw.fields.value| &&
      forall i :: 0 <= i < |raw.fields.value| ==>
        e.fields.value[i] == EventFieldFrom(raw.fields.value[i])
  {
    var fields := match raw.fields
      case None => None
      case Some(fs) => Some(seq(|fs|, i requires 0 <= i < |fs| => EventFieldFrom(fs[i])));
    Event(raw.name, raw.description, fields)
  }

  /** An absent list stays absent; a present list becomes one unqualified
      reference per name, in order. */
  function OptionalRefsFrom(names: Option<seq<string>>): (refs: Option<seq<ComponentRef>>)
    ensures refs.Some? <==> names.Some?
    ensures names.Some? ==> Names(refs.value) == names.value && AllUnqualified(refs.value)
  {
    match names
    case None => None
    case Some(ns) => Some(RefsFrom(ns))
  }

  function ConstraintFrom(included: Option<seq<string>>, excluded: Option<seq<string>>): (c: ComponentConstraint)
    ensures c.included.Some? <==> included.Some?
    ensures c.excluded.Some? <==> excluded.Some?
    ensures included.Some? ==> Names(c.included.value) == included.value && AllUnqualified(c.included.value)
    ensures excluded.Some? ==> Names(c.excluded.value) == excluded.value && AllUnqualified(c.excluded.value)
  {
    ComponentConstraint(OptionalRefsFrom(included), OptionalRefsFrom(excluded))
  }

  function EntityProtoFrom(raw: RawEntityProto): (p: EntityProto)
    ensures p.name == raw.name && p.description == raw.description
    ensures Names(p.components) == raw.components
    ensures AllUnqualified(p.components)
  {
    EntityProto(raw.name, raw.description, RefsFrom(raw.components))
  }

  function QueryFrom(raw: RawSystemQuery): (q: SystemQuery)
    ensures q.name == raw.name && q.description == raw.description
    ensures q.componentConstraint == ConstraintFrom(raw.componentsInclude, raw.componentsExclude)
  {
    SystemQuery(raw.name, raw.description, ConstraintFrom(raw.componentsInclude, raw.componentsExclude))
  }

  // ---------------------------------------------------------------------
  // Fallible conversions
  // ---------------------------------------------------------------------

  /** Rust's `i as u32` on a 64-bit integer keeps the low 32 bits. */
  function AsU32(i: int): U32 {
    i % U32_MODULUS
  }

  /** A handler priority: absent means 0, a non-negative integer is
      truncated to 32 bits, anything else is rejected. */
  function ConvertPriority(p: Option<Toml.Value>): (r: Result<U32, ConversionError>)
    ensures r.Success? <==> p.None? || (p.value.Integer? && p.value.i >= 0)
    ensures p.None? ==> r == Success(0)
    ensures p.Some? && p.value.Integer? && 0 <= p.value.i < U32_MODULUS ==> r == Success(p.value.i)
    ensures p.Some? && p.value.Integer? && p.value.i >= 0 ==>
      r.value % U32_MODULUS == p.value.i % U32_MODULUS
    ensures p.Some? && p.value.Integer? && p.value.i < 0 ==> r == Failure(NegativePriority)
    ensures p.Some? && !p.value.Integer? ==> r == Failure(PriorityNotInteger)
  {
    match p
    case None => Success(0)
    case Some(v) =>
      match v
      case Integer(i) => if i < 0 then Failure(NegativePriority) else Success(AsU32(i))
      case _ => Failure(PriorityNotInteger)
  }

  function HandlerTryFrom(raw: RawSystemEventHandler): (h: Result<SystemEventHandler, ConversionError>)
    ensures h.Success? <==> ConvertPriority(raw.priority).Success?
    ensures h.Success? ==>
      && h.value.watchFor == raw.watchFor
      && h.value.logic == raw.logic
      && h.value.priority == ConvertPriority(raw.priority).value
    ensures h.Failure? ==> h.error == ConvertPriority(raw.priority).error
  {
    var priority :- ConvertPriority(raw.priority);
    Success(SystemEventHandler(raw.watchFor, priority, raw.logic))
  }

  /** An update interval: a positive integer is that many seconds, a float
      must not compare `<= 0.0`, and no other kind of value is a number. */
  function ConvertInterval(v: Toml.Value): (r: Result<Interval, ConversionError>)
    ensures v.Integer? && v.i > 0 ==> r == Success(Seconds(v.i))
    ensures v.Integer? && v.i <= 0 ==> r == Failure(IntervalNotPositive)
    ensures v.Float? ==> (r.Success? <==> !Toml.AtMostZero(v.f))
    ensures v.Float? && r.Failure? ==> r.error == IntervalNotPositive
    ensures !v.Integer? && !v.Float? ==> r == Failure(IntervalNotNumber)
  {
    match v
    case Integer(i) => if i <= 0 then Failure(IntervalNotPositive) else Success(Seconds(i))
    case Float(f) => if Toml.AtMostZero(f) then Failure(IntervalNotPositive) else Success(FractionalSeconds(f))
    case _ => Failure(IntervalNotNumber)
  }

  function UpdateTryFrom(raw: RawSystemUpdate): (u: Result<SystemUpdate, ConversionError>)
    ensures u.Success? <==> ConvertInterval(raw.interval).Success?
    ensures u.Success? ==>
      && u.value.interval == ConvertInterval(raw.interval).value
      && u.value.condition == raw.condition
      && u.value.logic == raw.logic
    ensures u.Failure? ==> u.error == ConvertInterval(raw.interval).error
  {
    var interval :- ConvertInterval(raw.interval);
    Success(SystemUpdate(interval, raw.condition, raw.logic))
  }

  /** An absent update block converts to an absent update. */
  function OptionalUpdateTryFrom(raw: Option<RawSystemUpdate>): (u: Result<Option<SystemUpdate>, ConversionError>)
    ensures raw.None? ==> u == Success(None)
    ensures raw.Some? ==> (u.Success? <==> UpdateTryFrom(raw.value).Success?)
    ensures raw.Some? && u.Success? ==> u.value == Some(UpdateTryFrom(raw.value).value)
    ensures raw.Some? && u.Failure? ==> u.error == UpdateTryFrom(raw.value).error
  {
    match raw
    case None => Success(None)
    case Some(r) =>
      var update :- UpdateTryFrom(r);
      Success(Some(update))
  }

  /** Index `k` holds the first handler whose conversion fails. */
  predicate FirstFailingHandler(hs: seq<RawSystemEventHandler>, k: int) {
    && 0 <= k < |hs|
    && HandlerTryFrom(hs[k]).Failure?
    && forall j :: 0 <= j < k ==> HandlerTryFrom(hs[j]).Success?
  }

  /** Converts every handler, in order, stopping at the first failure. */
  function ConvertHandlers(hs: seq<RawSystemEventHandler>): (r: Result<seq<SystemEventHandler>, ConversionError>)
    ensures r.Success? <==> forall i :: 0 <= i < |hs| ==> HandlerTryFrom(hs[i]).Success?
    ensures r.Success? ==>
      |r.value| == |hs| &&
      forall i :: 0 <= i < |hs| ==> r.value[i] == HandlerTryFrom(hs[i]).value
    ensures r.Failure? ==>
      exists k :: FirstFailingHandler(hs, k) && r.error == HandlerTryFrom(hs[k]).error
  {
    if |hs| == 0 then Success([])
    else
      match HandlerTryFrom(hs[0])
      case Failure(e) =>
        assert FirstFailingHandler(hs, 0);
        Failure(e)
      case Success(h) =>
        match ConvertHandlers(hs[1..])
        case Failure(e) =>
          assert forall k :: FirstFailingHandler(hs[1..], k) ==> FirstFailingHandler(hs, k + 1);
          Failure(e)
        case Success(rest) => Success([h] + rest)
  }

  /** All-or-nothing system conversion: queries are mapped one to one, the
      update block is converted first, then every handler; the first error
      met is the result. */
  function SystemTryFrom(raw: RawSystem): (r: Result<System, ConversionError>)
    ensures r.Success? <==>
      && OptionalUpdateTryFrom(raw.update).Success?
      && forall i :: 0 <= i < |raw.eventHandlers| ==> HandlerTryFrom(raw.eventHandlers[i]).Success?
    ensures r.Success? ==>
      && r.value.normal == raw.normal
      && |r.value.queries| == |raw.queries|
      && (forall i :: 0 <= i < |raw.queries| ==> r.value.queries[i] == QueryFrom(raw.queries[i]))
      && (r.value.update.None? <==> raw.update.None?)
      && (raw.update.Some? ==> r.value.update.value == UpdateTryFrom(raw.update.value).value)
      && |r.value.eventHandlers| == |raw.eventHandlers|
      && (forall i :: 0 <= i < |raw.eventHandlers| ==>
            r.value.eventHandlers[i] == HandlerTryFrom(raw.eventHandlers[i]).value)
    ensures raw.update.Some? && UpdateTryFrom(raw.update.value).Failure? ==>
      r == Failure(UpdateTryFrom(raw.update.value).error)
    ensures r.Failure? && OptionalUpdateTryFrom(raw.update).Success? ==>
      exists k :: FirstFailingHandler(raw.eventHandlers, k) &&
        r.error == HandlerTryFrom(raw.eventHandlers[k]).error
  {
    var queries := seq(|raw.queries|, i requires 0 <= i < |raw.queries| => QueryFrom(raw.queries[i]));
    var update :- OptionalUpdateTryFrom(raw.update);
    var handlers :- ConvertHandlers(raw.eventHandlers);
    Success(System(raw.normal, queries, update, handlers))
  }
}

=== FILE: toml.dfy ===
/** The values of the TOML configuration format that the loader reads
    defaults, priorities and intervals from. Only the tag of a value and the
    payloads the checker inspects (integers, the sign of floats) are
    modelled; the rest is carried opaquely. */
module Toml {

  const I64_MIN: int := -0x8000_0000_0000_0000
  const I64_MAX: int := 0x7FFF_FFFF_FFFF_FFFF

  /** TOML integers are signed 64-bit. */
  type I64 = i: int | I64_MIN <= i <= I64_MAX

  type Exponent = e: nat | e < 0x800
  type Mantissa = m: nat | m < 0x10_0000_0000_0000

  /** A binary64 float given by its IEEE-754 fields. */
  datatype Float64 = Float64(negative: bool, exponent: Exponent, mantissa: Mantissa)

  predicate IsNaN(f: Float64) {
    f.exponent == 0x7FF && f.mantissa != 0
  }

  predicate IsZero(f: Float64) {
    f.exponent == 0 && f.mantissa == 0
  }

  /** The IEEE comparison `f <= 0.0`: false for every NaN, true for both
      zeros and for every negative number. */
  predicate AtMostZero(f: Float64) {
    !IsNaN(f) && (f.negative || IsZero(f))
  }

  datatype Value =
    | String(s: string)
    | Integer(i: I64)
    | Float(f: Float64)
    | Boolean(b: bool)
    | Datetime(text: string)
    | Array(items: seq<Value>)
    | Table(keys: set<string>)

  /** The name TOML gives each kind of value. */
  function TypeName(v: Value): string {
    match v
    case String(_) => "string"
    case Integer(_) => "integer"
    case Float(_) => "float"
    case Boolean(_) => "boolean"
    case Datetime(_) => "datetime"
    case Array(_) => "array"
    case Table(_) => "table"
  }
}

=== FILE: type_checker.dfy ===
/** The type checker: a field's declared primitive type against its
    optional default literal. */
module TypeChecker {
  import opened Wrappers
  import Toml
  import opened Parsed

  datatype TypeError = TypeMismatch(expected: AethaumType)

  /** The TOML value kind each primitive type admits. */
  function AdmittedTomlType(p: PrimitiveType): string {
    match p
    case Bool => "boolean"
    case Int => "integer"
    case Float => "float"
    case Str => "string"
  }

  /** Accepts an absent default, or one whose TOML kind is the one the
      declared primitive admits. Custom types are not handled here: the
      caller must not pass one. */
  function CheckTypeValueMatch(typeSpec: AethaumType, defaultValue: Option<Toml.Value>): (r: Outcome<TypeError>)
    requires typeSpec.Primitive?
    ensures defaultValue.None? ==> r.Pass?
    ensures defaultValue.Some? ==>
      (r.Pass? <==> Toml.TypeName(defaultValue.value) == AdmittedTomlType(typeSpec.primitive))
    ensures r.Fail? ==> r.error == TypeMismatch(typeSpec)
  {
    match (typeSpec.primitive, defaultValue)
    case (Bool, Some(Boolean(_))) => Pass
    case (Int, Some(Integer(_))) => Pass
    case (Float, Some(Float(_))) => Pass
    case (Str, Some(String(_))) => Pass
    case (_, None) => Pass
    case _ => Fail(TypeMismatch(typeSpec))
  }

  /** Each primitive type admits exactly one kind of value, and different
      primitive types admit disjoint kinds. */
  lemma OneKindPerPrimitive(p: PrimitiveType, q: PrimitiveType, v: Toml.Value, w: Toml.Value)
    requires CheckTypeValueMatch(Primitive(p), Some(v)).Pass?
    ensures CheckTypeValueMatch(Primitive(p), Some(w)).Pass? <==> Toml.TypeName(w) == Toml.TypeName(v)
    ensures CheckTypeValueMatch(Primitive(q), Some(v)).Pass? <==> p == q
  {
  }

  /** An integer default for a float field is a mismatch. */
  lemma IntegerDefaultForFloatRejected(i: Toml.I64)
    ensures CheckTypeValueMatch(Primitive(Float), Some(Toml.Integer(i))) == Fail(TypeMismatch(Primitive(Float)))
  {
  }

  /** The default type check accepts everything. */
  function CheckType<T>(thing: T): (r: Outcome<TypeError>)
    ensures r.Pass?
  {
    Pass
  }
}

=== FILE: wrappers.dfy ===
/** Failure-compatible wrappers shared by every module of the model:
    Option for Rust's `Option`, Result for `Result<T, E>`, and Outcome for
    `Result<(), E>`. Result and Outcome can be used with `:-`. */
module Wrappers {

  datatype Option<+T> = None | Some(value: T)

  datatype Result<+T, +E> = Success(value: T) | Failure(error: E) {

    predicate IsFailure() {
      Failure?
    }

    function PropagateFailure<U>(): Result<U, E>
      requires Failure?
    {
      Failure(error)
    }

    function Extract(): T
      requires Success?
    {
      value
    }
  }

  datatype Outcome<+E> = Pass | Fail(error: E) {

    predicate IsFailure() {
      Fail?
    }

    function PropagateFailure(): Outcome<E>
      requires Fail?
    {
      this
    }
  }
}
